=== FILE: README.md ===
# APIClient request URLs in Dafny

A model of the request core of the Swift package `APIClient`: the `APIEndpoint`
enum, the `APIRequest` object's URL rendering (`urlString`), its designated
initializer, the `HttpMethod` enum, and the failable `init?(url:)` that parses
a URL back into a request. The configured base URL is passed explicitly as a
`Service` value instead of being read from the `APIService.shared` singleton.
A missing base URL ends the Swift program with `fatalError`. The model turns
that into the precondition `Configured(svc)`.

Modules, in dependency order:

- `Wrappers` (`wrappers.dfy`): `Option`, the model of Swift optionals.
- `Strings` (`strings.dfy`): the Foundation string operations the source relies on.
  - `Contains` models `contains`.
  - `ReplaceAll` models `replacingOccurrences(of:with:)`: left to right, non-overlapping.
  - `Split` models `components(separatedBy:)`: never empty, and empty pieces are kept.
  - `Join` models `joined(separator:)`.
  - Each comes with the lemmas relating them, e.g. splitting a join gives the parts back.
- `Endpoints` (`endpoint.dfy`): the `APIEndpoint` enum and its raw values.
- `Requests` (`request.dfy`): `HttpMethod`, `QueryItem` (a `URLQueryItem`), `Request`, the initializer and `UrlString`.
- `RequestParsing` (`parsing.dfy`): `init?(url:)` as `FromUrl`, with the query-item parser and its branch lemmas.
- `RoundTrip` (`roundtrip.dfy`): what parsing a rendered URL gives back, and what it cannot recover.
- `RenderExamples` (`examples_forward.dfy`) and `ParseExamples` (`examples_parse.dfy`): worked instances.

Two behaviours of the code are easy to miss, and the model keeps both:

- `urlString` appends `?` whenever the query list is non-empty (`APIRequest.swift:29-30`), so a list whose values are all nil leaves a trailing `?`. `TrailingMark` states this.
- The query text is the trimmed text with every `<endpoint>?` deleted (`APIRequest.swift:102`), wherever it occurs. `MarkerRemovedFromValue` shows a value losing an inner `users?`.

## Model

| member | source | states |
|---|---|---|
| Endpoints.Raw | Sources/APIClient/APIEndpoint.swift:4-7 | the raw value contains `/` exactly for `repositories`; no raw value is empty or contains `?`, `&` or `=` |
| Endpoints.FromRaw | Sources/APIClient/APIEndpoint.swift:4-7 | `APIEndpoint(rawValue:)` returns `e` exactly when `e`'s raw value is the input, and nil for every other string |
| Endpoints.RawInjective | Sources/APIClient/APIEndpoint.swift:5-6 | the two cases have distinct raw values |
| Endpoints.SegmentIsNeverRepositories | Sources/APIClient/APIEndpoint.swift:5 | a string with no `/` never names `repositories`, so one path segment can only be `users` |
| Requests.MethodFromRaw | Sources/APIClient/APIRequest.swift:42-51 | `HttpMethod(rawValue:)` returns `m` exactly when `m`'s raw value is the input |
| Requests.MethodRaw | Sources/APIClient/APIRequest.swift:42-51 | every method's wire name has at least three characters, all upper-case letters; `MethodFromRaw` inverts it |
| Requests.InitAsWritten | Sources/APIClient/APIRequest.swift:54-71 | the initializer as written stores endpoint, path components and query items, and the method is always the default GET |
| Requests.InitAsWrittenDropsMethod | Sources/APIClient/APIRequest.swift:63-71 | for any method other than GET, the initializer as written does not store the method it was given |
| Requests.Init | Sources/APIClient/APIRequest.swift:63-71 | the corrected initializer stores all four arguments, the method included |
| Requests.InitAgreesOnDefault | Sources/APIClient/APIRequest.swift:54-71 | called with GET, the corrected initializer agrees with the one as written |
| Requests.Present | Sources/APIClient/APIRequest.swift:31-34 | the items kept by the `compactMap` are no more than the input and all have a value |
| Requests.PresentExtremes | Sources/APIClient/APIRequest.swift:31-34 | nothing is kept exactly when every value is nil, and everything is kept when every value is present |
| Requests.PresentMembers | Sources/APIClient/APIRequest.swift:31-34 | an item is kept exactly when it is in the input and has a value |
| Requests.PresentSkipsNil | Sources/APIClient/APIRequest.swift:32 | removing an item with a nil value does not change what is kept |
| Requests.PairText | Sources/APIClient/APIRequest.swift:33 | a rendered pair always contains `=` |
| Requests.RenderItemsArePresentPairs | Sources/APIClient/APIRequest.swift:31-34 | the rendered pairs are exactly `name=value` of the kept items, in their original order |
| Requests.RenderItemsOfPresent | Sources/APIClient/APIRequest.swift:31-34 | two item lists that keep the same items render the same pairs |
| Requests.RenderItems | Sources/APIClient/APIRequest.swift:31-34 | the `compactMap` yields at most one pair per item; `RenderItemsArePresentPairs` states which pairs |
| Requests.PathSuffix | Sources/APIClient/APIRequest.swift:23-27 | no components add nothing; otherwise each component is appended after a `/` |
| Requests.QuerySuffix | Sources/APIClient/APIRequest.swift:29-36 | the query part is empty exactly when the list is empty, and otherwise starts with `?` |
| Requests.Relative | Sources/APIClient/APIRequest.swift:21-36 | the text after `base/` starts with the endpoint's raw value |
| Requests.UrlString | Sources/APIClient/APIRequest.swift:19-39 | the URL always starts with the base URL followed by `/` |
| Requests.UrlStringRendering | Sources/APIClient/APIRequest.swift:19-39 | the whole URL: base, `/`, endpoint and components joined by `/`, then for a non-empty list `?` and the `name=value` texts of the items with a value joined by `&` |
| Requests.NoQueryNoMark | Sources/APIClient/APIRequest.swift:21-27 | without query items nothing follows the last component: the URL is the base URL, `/`, and the endpoint and components joined by `/` |
| Requests.TrailingMark | Sources/APIClient/APIRequest.swift:29-36 | when the query list is non-empty and every value in it is nil, the URL still ends in a bare `?` (an empty list adds no `?`) |
| Requests.NilItemDropped | Sources/APIClient/APIRequest.swift:31-34 | removing an item with a nil value from a list of more than one item leaves the URL unchanged |
| Requests.MethodNotInUrl | Sources/APIClient/APIRequest.swift:19-39 | the HTTP method has no effect on the URL |
| Strings.ContainsIff | Sources/APIClient/APIRequest.swift:78 | the substring test holds exactly when the pattern occurs at some position |
| Strings.Contains | Sources/APIClient/APIRequest.swift:78 | the substring test, true for the empty pattern; `ContainsIff` states its meaning as an occurrence at some position |
| Strings.ReplaceAll | Sources/APIClient/APIRequest.swift:82 | replacing leaves a string without the pattern unchanged and never lengthens it when the replacement is no longer than the pattern |
| Strings.ReplaceAllLeftmost | Sources/APIClient/APIRequest.swift:82 | the leftmost occurrence is replaced: the text before it is copied, it becomes the replacement, and the scan resumes after it |
| Strings.ReplaceAllShrinks | Sources/APIClient/APIRequest.swift:82 | when the pattern occurs and the replacement is shorter, the result is strictly shorter |
| Strings.ReplaceAllChars | Sources/APIClient/APIRequest.swift:82 | every character of the result comes from the text or the replacement |
| Strings.ReplaceAllAfterLead | Sources/APIClient/APIRequest.swift:102 | a lead that cannot start the pattern passes through unchanged |
| Strings.Split | Sources/APIClient/APIRequest.swift:84 | splitting gives at least one piece, no piece holds the separator, joining the pieces gives the input back, and there is one piece exactly when the separator is absent |
| Strings.SplitJoin | Sources/APIClient/APIRequest.swift:84 | splitting the join of a non-empty list of separator-free pieces gives the pieces back (the empty list and `[""]` both join to the empty text) |
| Strings.SplitHead | Sources/APIClient/APIRequest.swift:99-100 | the first piece is the text before the first separator |
| Strings.JoinInjective | Sources/APIClient/APIRequest.swift:24-26 | joining is injective on non-empty lists of separator-free pieces |
| Strings.Join | Sources/APIClient/APIRequest.swift:34 | the empty list joins to the empty string, the join starts with the first piece, and with two or more pieces the separator follows it |
| RequestParsing.ParsePiece | Sources/APIClient/APIRequest.swift:105-109 | a piece gives an item exactly when it contains `=`; the item has a value and neither name nor value contains `=` |
| RequestParsing.ParsePieceLayout | Sources/APIClient/APIRequest.swift:108-109 | the piece is the parsed `name=value`, or starts with it followed by a further `=` whose rest is dropped |
| RequestParsing.ParsePiecePairText | Sources/APIClient/APIRequest.swift:105-109 | parsing the rendered `name=value` pair of an item whose name and value hold no `=` gives the item back (`TruncationExample` shows what an `=` does) |
| RequestParsing.ParsePieceTruncates | Sources/APIClient/APIRequest.swift:108-109 | everything after a second `=` is dropped |
| RequestParsing.ParseQueryItems | Sources/APIClient/APIRequest.swift:104-110 | the parsed items are no more than the pieces, all with a value and with no `=` in name or value |
| RequestParsing.ParseQueryItemsAppend | Sources/APIClient/APIRequest.swift:104-110 | parsing distributes over concatenation of the pieces |
| RequestParsing.ParseRenderedItems | Sources/APIClient/APIRequest.swift:104-110 | parsing the rendered pairs of `=`-free items gives back the items that have a value |
| RequestParsing.ParseTrimmed | Sources/APIClient/APIRequest.swift:83-115 | a parsed request has the `users` endpoint and GET, never both path components and query items, no `/` in a component, and a value in every item |
| RequestParsing.Trimmed | Sources/APIClient/APIRequest.swift:82 | every `base/` deleted from the URL; `ReplaceAllLeftmost`, `ReplaceAllShrinks` and `TrimRendered` state what that leaves |
| RequestParsing.FromUrl | Sources/APIClient/APIRequest.swift:75-116 | a request is returned only when the URL contains the base URL, and then satisfies everything `ParseTrimmed` promises |
| RequestParsing.PathBranch | Sources/APIClient/APIRequest.swift:83-96 | with a `/` present, a request comes back exactly when the text starts with `users/`; it has no query items, and endpoint plus components joined by `/` give the text back |
| RequestParsing.QueryBranch | Sources/APIClient/APIRequest.swift:98-113 | with `?` and no `/`, a request comes back exactly when the text starts with `users?`, and it has no path components |
| RequestParsing.NeitherSeparator | Sources/APIClient/APIRequest.swift:83-115 | text with neither `/` nor `?` gives no request |
| RequestParsing.RejectsForeignUrl | Sources/APIClient/APIRequest.swift:78-80 | a URL that does not contain the base URL gives no request |
| RoundTrip.TrimRendered | Sources/APIClient/APIRequest.swift:82 | trimming a rendered URL whose relative part holds no `base/` leaves exactly the relative part |
| RoundTrip.ParseJoinedPairs | Sources/APIClient/APIRequest.swift:103-110 | splitting the `&`-joined pairs of clean items and parsing them gives back the items that have a value |
| RoundTrip.RoundTripPath | Sources/APIClient/APIRequest.swift:19-27 | a `users` request with path components and no query renders to a URL that parses back to the same request with the method reset to GET |
| RoundTrip.RoundTripQuery | Sources/APIClient/APIRequest.swift:98-113 | a `users` request with query items and no components parses back with exactly its items that have a value |
| RoundTrip.RoundTripQueryAllPresent | Sources/APIClient/APIRequest.swift:29-36 | a `users` request with no components, a non-empty list of clean items that all have a value, and `base/` only at the front parses back unchanged apart from the method |
| RoundTrip.TrailingMarkRoundTrip | Sources/APIClient/APIRequest.swift:29-30 | a `users` request with no components and a non-empty list of only nil values renders a bare `?` that parses back to a `users` request with no items, whatever the nil items' names hold |
| RoundTrip.PathWinsOverQuery | Sources/APIClient/APIRequest.swift:83-96 | for a `users` request with `/`-free components and clean items, both present, the query text ends up glued onto the last path component and no items come back |
| RoundTrip.RepositoriesNotRecovered | Sources/APIClient/APIEndpoint.swift:5 | when `base/` occurs in the rendered URL only at its front, a rendered `repositories` request does not parse back, because its first segment is `search`; that a parse never yields `repositories` at all is `RequestParsing.FromUrl`'s ensures |
| RoundTrip.BareEndpointNotRecovered | Sources/APIClient/APIRequest.swift:83-115 | a request with neither components nor items does not parse back: for `users` on every base URL, for `repositories` when `base/` occurs only at the front |
| RoundTrip.RepeatedBaseIgnored | Sources/APIClient/APIRequest.swift:82 | for every request, prefixing its URL with another copy of `base/` changes nothing, since every occurrence is removed |
| RoundTrip.TrimDoubledBase | Sources/APIClient/APIRequest.swift:82 | when the relative part itself starts with `base/` and holds no further `base/` after it, that copy is deleted as well and parsing sees only what follows it |
| RoundTrip.RepositoriesReadAsUsers | Sources/APIClient/APIRequest.swift:82-93 | with base URL `search/repositories`, the `repositories` request with components `users`, `x` parses back as the `users` request with component `x` |
| RenderExamples.RenderThree | Sources/APIClient/APIRequest.swift:31-34 | three items render to the outer pairs, with the middle pair only when it has a value |
| RenderExamples.RepositorySearchShape | Sources/APIClient/APIRequest.swift:19-39 | a repository search with three items renders as base, `/search/repositories?` and the pairs joined by `&`, the middle one only when it has a value |
| RenderExamples.RepositorySearchExample | Sources/APIClient/APIRequest.swift:15 | the documented repository search, with the documented base URL, renders to `https://api.github.com/search/repositories?q=tetris&sort=stars&order=desc` |
| RenderExamples.NilSortExample | Sources/APIClient/APIRequest.swift:31-34 | with a nil sort value the same search renders to `…?q=tetris&order=desc` |
| ParseExamples.TruncationExample | Sources/APIClient/APIRequest.swift:108-109 | `a=b=c` parses to the item `a` with value `b` |
| ParseExamples.PieceWithoutEquals | Sources/APIClient/APIRequest.swift:105-107 | a piece with no `=` between two pairs is skipped |
| ParseExamples.SubstringNotPrefix | Sources/APIClient/APIRequest.swift:78-82 | a URL that contains the base URL without starting with it is still accepted and parsed |
| ParseExamples.MarkerRemovedFromValue | Sources/APIClient/APIRequest.swift:102 | `users?` is removed inside a value too, so `users?n=users?v` reads as the item `n=v` |

## Left out

- `APIService.swift`: network I/O, JSON decoding, completion handlers and the shared singleton. The base URL is a parameter here. Its `configure` guard (`APIService.swift:15`) appears inverted; that is outside this model.
- `url: URL?` and `URL(string:)`: Foundation's URL validation is not modelled, so `UrlString` is the string the request would hand to it. `init?(url:)` is modelled on `absoluteString` taken as the input string, assuming Foundation returns the text unchanged.
- Percent-encoding and any Unicode normalisation by Foundation: strings are plain character sequences.
- `fatalError` on an unconfigured base URL is modelled as the precondition `Configured(svc)`, not as a result.
- `Strings.Contains`: Foundation's `contains("")` returns false, while the model's substring test returns true for the empty pattern. The two disagree only in the base-URL check of `init?(url:)` (`APIRequest.swift:78`) when the base URL is `""`: there the model accepts every input. Because the guard in `configure` (`APIService.swift:15`) is inverted, `""` is the only base URL `configure` can store, so this is the case the source as written reaches; for every non-empty base URL the two agree.
- `RequestParsing.FromUrl`: the `!components.isEmpty` guard at `APIRequest.swift:85` always holds, because splitting never returns an empty list, so it has no branch of its own.
- `RoundTrip.RoundTripPath`, `RoundTrip.RoundTripQuery` and `RoundTrip.RoundTripQueryAllPresent`: all three are stated only for relative parts not containing `base/` (`BaseOnlyAtFront`). `RoundTripPath` also needs components free of `/`. `RoundTripQuery` and `RoundTripQueryAllPresent` need items free of `/`, `?`, `&` and `=` (`Clean`); a value `b&c=d` comes back as two items. Outside those conditions the source itself does not round-trip; `PathWinsOverQuery`, `RepositoriesReadAsUsers`, `MarkerRemovedFromValue` and `ParseExamples.SubstringNotPrefix` show some of the ways.
- `RoundTrip.RepositoriesNotRecovered`: stated only when `base/` occurs in the rendered URL only at its front (`BaseOnlyAtFront`). Without it the statement is false: `RoundTrip.RepositoriesReadAsUsers` gives a base URL and a `repositories` request that parse back as a `users` request.
- `parts[1]` at `APIRequest.swift:109` cannot trap, because the piece contains `=`; the model proves the index is in range rather than modelling a crash.

## Findings

| source | as written | input that shows it | evidently intended | confidence | as-written member | corrected member |
|---|---|---|---|---|---|---|
| Sources/APIClient/APIRequest.swift:63-71 | the initializer takes `httpMethod` but never assigns it, so the property keeps its default `.get` | `APIRequest(httpMethod: .post, enpoint: .users)` has `httpMethod == .get` | the request keeps the method it was created with | not executed | Requests.InitAsWritten (with Requests.InitAsWrittenDropsMethod) | Requests.Init |

=== FILE: endpoint.dfy ===
/** The closed registry of API endpoints and their path segments (`APIEndpoint`). */
module Endpoints {
  import opened Wrappers

  datatype Endpoint = Repositories | Users

  /** The path segment of an endpoint: an explicit raw value, or the case name when none is given. */
  function Raw(e: Endpoint): (r: string)
    ensures '/' in r <==> e == Repositories
    ensures |r| > 0 && '?' !in r && '&' !in r && '=' !in r
  {
    match e
    case Repositories => "search/repositories"
    case Users => "users"
  }

  /** The failable `init(rawValue:)`: the endpoint whose path segment is `s`, if any. */
  function FromRaw(s: string): (r: Option<Endpoint>)
    ensures forall e :: r == Some(e) <==> Raw(e) == s
    ensures r.None? <==> s != Raw(Repositories) && s != Raw(Users)
  {
    if s == "search/repositories" then Some(Repositories)
    else if s == "users" then Some(Users)
    else None
  }

  /** Distinct endpoints have distinct path segments. */
  lemma RawInjective(a: Endpoint, b: Endpoint)
    ensures Raw(a) == Raw(b) <==> a == b
  {
  }

  /** A text without `/` never names `repositories`: its segment has a `/` in it. */
  lemma SegmentIsNeverRepositories(s: string)
    requires '/' !in s
    ensures FromRaw(s) != Some(Repositories)
  {
  }
}

=== FILE: examples_forward.dfy ===
/** Worked renderings of concrete requests. */
module RenderExamples {
  import opened Wrappers
  import opened Strings
  import opened Endpoints
  import opened Requests

  /** Three items render to the pairs of the two outer ones, with the middle one's pair only when it has a value. */
  lemma RenderThree(q: QueryItem, s: QueryItem, o: QueryItem)
    requires q.value.Some? && o.value.Some?
    ensures s.value.Some? ==> RenderItems([q, s, o]) == [PairText(q), PairText(s), PairText(o)]
    ensures s.value.None? ==> RenderItems([q, s, o]) == [PairText(q), PairText(o)]
  {
    assert RenderItems([]) == [];
    RenderItemsCons(o, []);
    assert [o] + [] == [o] && [s] + [o] == [s, o] && [q] + [s, o] == [q, s, o];
    RenderItemsCons(s, [o]);
    RenderItemsCons(q, [s, o]);
  }

  /** Joining two or three pieces puts the separator between neighbours. */
  lemma JoinSmall(a: string, b: string, c: string, sep: char)
    ensures Join([a, b], sep) == a + [sep] + b
    ensures Join([a, b, c], sep) == a + [sep] + b + [sep] + c
  {
    assert [a, b][1..] == [b];
    assert [a, b, c][1..] == [b, c];
    assert [b, c][1..] == [c];
    assert Join([b, c], sep) == b + [sep] + c;
    assert a + [sep] + (b + [sep] + c) == a + [sep] + b + [sep] + c;
  }

  /** Regrouping a five-part concatenation from the right to the left. */
  lemma Regroup(h: string, a: string, b: string, c: string, d: string, f: string)
    ensures h + (a + b + c + d + f) == h + a + b + c + d + f
    ensures h + (a + b + c) == h + a + b + c
  {
  }

  /**
   A repository search with three items renders as the base URL,
   `/search/repositories?` and the pairs of the items that have a value,
   joined by `&`; the middle pair is left out when its item has no value.
   */
  lemma RepositorySearchShape(base: string, q: QueryItem, s: QueryItem, o: QueryItem)
    requires q.value.Some? && o.value.Some?
    ensures var url := UrlString(Service(Some(base)), Request(Repositories, [], [q, s, o], Get));
      s.value.Some? ==> url == base + "/search/repositories?" + PairText(q) + "&" + PairText(s) + "&" + PairText(o)
    ensures var url := UrlString(Service(Some(base)), Request(Repositories, [], [q, s, o], Get));
      s.value.None? ==> url == base + "/search/repositories?" + PairText(q) + "&" + PairText(o)
  {
    var svc := Service(Some(base));
    var qs := [q, s, o];
    var r := Request(Repositories, [], qs, Get);
    var head := base + "/search/repositories?";
    var text := Join(RenderItems(qs), '&');
    assert UrlString(svc, r) == head + text by {
      assert Raw(Repositories) == "search/repositories";
      assert PathSuffix([]) == "";
      assert QuerySuffix(qs) == "?" + text;
      assert "/" + "search/repositories" + "?" == "/search/repositories?";
    }
    RenderThree(q, s, o);
    if s.value.Some? {
      JoinSmall(PairText(q), PairText(s), PairText(o), '&');
      Regroup(head, PairText(q), "&", PairText(s), "&", PairText(o));
    } else {
      JoinSmall(PairText(q), PairText(o), "", '&');
      Regroup(head, PairText(q), "&", PairText(o), "", "");
    }
  }

  /**
   The documented search, with and without a sort value. The base URL and the
   items are variables here, which keeps the verifier from unfolding the
   rendering of an all-literal request.
   */
  lemma SearchUrl(base: string, q: QueryItem, s: QueryItem, o: QueryItem)
    requires base == "https://api.github.com"
    requires q == QueryItem("q", Some("tetris")) && o == QueryItem("order", Some("desc"))
    requires s == QueryItem("sort", Some("stars")) || s == QueryItem("sort", None)
    ensures var url := UrlString(Service(Some(base)), Request(Repositories, [], [q, s, o], Get));
      url == if s.value.Some? then base + "/search/repositories?" + "q=tetris" + "&" + "sort=stars" + "&" + "order=desc"
             else base + "/search/repositories?" + "q=tetris" + "&" + "order=desc"
  {
    assert PairText(q) == "q=tetris";
    assert PairText(o) == "order=desc";
    assert s.value.Some? ==> PairText(s) == "sort=stars";
    RepositorySearchShape(base, q, s, o);
  }

  /**
   The repository search from the documentation of the query items, with the
   documented base URL: `https://api.github.com/search/repositories?q=tetris&sort=stars&order=desc`,
   written below as its parts.
   */
  lemma RepositorySearchExample()
    ensures UrlString(
      Service(Some("https://api.github.com")),
      Request(Repositories, [],
        [QueryItem("q", Some("tetris")), QueryItem("sort", Some("stars")), QueryItem("order", Some("desc"))],
        Get))
      == "https://api.github.com" + "/search/repositories?" + "q=tetris" + "&" + "sort=stars" + "&" + "order=desc"
  {
    SearchUrl("https://api.github.com", QueryItem("q", Some("tetris")), QueryItem("sort", Some("stars")),
      QueryItem("order", Some("desc")));
  }

  /**
   The same search with the sort item left without a value: neither its name
   nor an `=` appears, giving `https://api.github.com/search/repositories?q=tetris&order=desc`.
   */
  lemma NilSortExample()
    ensures UrlString(
      Service(Some("https://api.github.com")),
      Request(Repositories, [],
        [QueryItem("q", Some("tetris")), QueryItem("sort", None), QueryItem("order", Some("desc"))],
        Get))
      == "https://api.github.com" + "/search/repositories?" + "q=tetris" + "&" + "order=desc"
  {
    SearchUrl("https://api.github.com", QueryItem("q", Some("tetris")), QueryItem("sort", None),
      QueryItem("order", Some("desc")));
  }
}

=== FILE: examples_parse.dfy ===
/** Reverse parsing of URL strings that are not plain renderings. */
module ParseExamples {
  import opened Wrappers
  import opened Strings
  import opened Endpoints
  import opened Requests
  import opened RequestParsing
  import opened RoundTrip

  /** `n=v=w` with `n` and `v` free of `=` parses to name `n` and value `v`; `a=b=c` gives `a` and `b`. */
  lemma TruncationExample()
    ensures ParsePiece("a=b=c") == Some(QueryItem("a", Some("b")))
  {
    assert "a" + "=" + "b" + "=" + "c" == "a=b=c";
    ParsePieceTruncates("a", "b", "c");
  }

  /** A piece without `=` contributes no item, and the pieces around it are kept. */
  lemma PieceWithoutEquals(a: QueryItem, flag: string, b: QueryItem)
    requires a.value.Some? && CleanItem(a) && b.value.Some? && CleanItem(b) && Clean(flag)
    ensures ParseQueryItems([PairText(a), flag, PairText(b)]) == [a, b]
  {
    ParsePiecePairText(a);
    ParsePiecePairText(b);
    var pieces := [PairText(a), flag, PairText(b)];
    assert pieces[1..] == [flag, PairText(b)];
    assert pieces[1..][1..] == [PairText(b)];
    assert ParseQueryItems([PairText(b)]) == [b] + ParseQueryItems([]);
  }

  /** `users/` + base + `/` + `c` contains the base URL. */
  lemma BaseInside(base: string, c: string)
    ensures Contains("users/" + base + "/" + c, base)
  {
    var url := "users/" + base + "/" + c;
    assert url[6..6 + |base|] == base;
    assert OccursAt(url, base, 6);
    ContainsIff(url, base);
  }

  /** Removing `base/` from `users/` + base + `/` + `c` leaves `users/` + `c`. */
  lemma TrimInnerBase(base: string, c: string)
    requires |base| > 0 && base[0] !in "users/" && !Contains(c, base + "/")
    ensures Trimmed(base, "users/" + base + "/" + c) == "users/" + c
  {
    var pat := base + "/";
    var url := "users/" + base + "/" + c;
    assert ReplaceAll(url, pat, "") == "users/" + ReplaceAll(pat + c, pat, "") by {
      assert url == "users/" + (pat + c);
      ReplaceAllAfterLead("users/", pat + c, pat, "");
    }
    assert ReplaceAll(pat + c, pat, "") == ReplaceAll(c, pat, "") by {
      ReplaceAllFront(pat, c, "");
    }
    assert ReplaceAll(c, pat, "") == c;
  }

  /** `users/` + `c` parses to the single path component `c`. */
  lemma ParseSingleComponent(svc: Service, c: string)
    requires Configured(svc) && '/' !in c
    ensures ParseTrimmed(svc, "users/" + c) == Some(Request(Users, [c], [], Get))
  {
    var parts := ["users", c];
    assert parts[1..] == [c];
    assert Join(parts, '/') == "users/" + c;
    ParseUsersPath(svc, parts);
  }

  /**
   The base-URL check is a substring test, not a prefix test: `users/` +
   base + `/` + `c` does not start with the base URL, yet parses to the
   `users` endpoint with the single path component `c`.
   */
  lemma SubstringNotPrefix(svc: Service, c: string)
    requires Configured(svc) && |svc.baseUrl.value| > 0
    requires svc.baseUrl.value[0] !in "users/"
    requires '/' !in c && !Contains(c, svc.baseUrl.value + "/")
    ensures !IsPrefix(svc.baseUrl.value, "users/" + svc.baseUrl.value + "/" + c)
    ensures FromUrl(svc, "users/" + svc.baseUrl.value + "/" + c) == Some(Request(Users, [c], [], Get))
  {
    var base := svc.baseUrl.value;
    var url := "users/" + base + "/" + c;
    assert url[0] == 'u';
    BaseInside(base, c);
    TrimInnerBase(base, c);
    ParseSingleComponent(svc, c);
    FromUrlTrimmed(svc, url, "users/" + c);
  }

  /** Removing every `users?` from `n=users?v` leaves `n=v`. */
  lemma MarkerReplaced(n: string, v: string)
    requires Clean(n) && Clean(v) && 'u' !in n
    ensures ReplaceAll(n + "=" + ("users?" + v), "users?", "") == n + "=" + v
  {
    var pat := "users?";
    var lead := n + "=";
    assert ReplaceAll(lead + (pat + v), pat, "") == lead + ReplaceAll(pat + v, pat, "") by {
      assert pat[0] == 'u';
      ReplaceAllAfterLead(lead, pat + v, pat, "");
    }
    assert ReplaceAll(pat + v, pat, "") == ReplaceAll(v, pat, "") by {
      ReplaceAllFront(pat, v, "");
    }
    assert ReplaceAll(v, pat, "") == v by {
      ContainsChar(v, '?');
      if Contains(v, pat) {
        assert pat[5] == '?';
        ContainsChars(v, pat, '?');
      }
    }
  }

  /** A single clean pair, split on `&` and parsed, gives the item back. */
  lemma ParseSinglePair(item: QueryItem)
    requires item.value.Some? && CleanItem(item)
    ensures ParseQueryItems(Split(PairText(item), '&')) == [item]
  {
    assert '&' !in PairText(item);
    assert Split(PairText(item), '&') == [PairText(item)];
    ParsePiecePairText(item);
    assert ParseQueryItems([PairText(item)]) == [item] + ParseQueryItems([]);
  }

  /**
   The query text is what is left once every `users?` is removed, wherever it
   occurs: `users?n=users?v` reads as the single item `n=v`.
   */
  lemma MarkerRemovedFromValue(svc: Service, n: string, v: string)
    requires Configured(svc) && Clean(n) && Clean(v) && 'u' !in n
    ensures ParseTrimmed(svc, "users?" + n + "=" + "users?" + v)
      == Some(Request(Users, [], [QueryItem(n, Some(v))], Get))
  {
    var q := n + "=" + ("users?" + v);
    assert "users?" + n + "=" + "users?" + v == "users?" + q;
    assert '/' !in q;
    ParseUsersQueryText(svc, q);
    MarkerReplaced(n, v);
    var item := QueryItem(n, Some(v));
    assert PairText(item) == n + "=" + v;
    ParseSinglePair(item);
  }
}

=== FILE: parsing.dfy ===
/**
 The failable `init?(url:)`: reading a request description back from a URL
 string, against the configured base URL.
 */
module RequestParsing {
  import opened Wrappers
  import opened Strings
  import opened Endpoints
  import opened Requests

  /**
   One `&`-separated piece of a query string. A piece without `=` gives nothing;
   otherwise the name is the text before the first `=` and the value the text
   up to the next `=` or the end, and anything after a second `=` is dropped.
   */
  function ParsePiece(piece: string): (r: Option<QueryItem>)
    ensures r.Some? <==> '=' in piece
    ensures r.Some? ==> r.value.value.Some?
    ensures r.Some? ==> '=' !in r.value.name && '=' !in r.value.value.value
  {
    ContainsChar(piece, '=');
    if Contains(piece, "=") then
      var parts := Split(piece, '=');
      Some(QueryItem(parts[0], Some(parts[1])))
    else None
  }

  /** The text of a piece is the parsed name, `=`, the parsed value, then either nothing or a further `=` and the dropped rest. */
  lemma ParsePieceLayout(piece: string)
    requires '=' in piece
    ensures var q := ParsePiece(piece).value;
      piece == q.name + "=" + q.value.value
      || IsPrefix(q.name + "=" + q.value.value + "=", piece)
  {
    var parts := Split(piece, '=');
    assert |parts| >= 2;
    assert piece == parts[0] + "=" + Join(parts[1..], '=');
    if |parts| > 2 {
      assert Join(parts[1..], '=') == parts[1] + "=" + Join(parts[2..], '=');
      assert piece == (parts[0] + "=" + parts[1] + "=") + Join(parts[2..], '=');
    }
  }

  /** Parsing a rendered `name=value` pair gives the item back, when neither side contains `=`. */
  lemma ParsePiecePairText(q: QueryItem)
    requires q.value.Some? && '=' !in q.name && '=' !in q.value.value
    ensures ParsePiece(PairText(q)) == Some(q)
  {
    var parts := [q.name, q.value.value];
    assert Join(parts, '=') == PairText(q) by {
      assert parts[1..] == [q.value.value];
    }
    SplitJoin(parts, '=');
  }

  /** A second `=` truncates: `n=v=w` parses to name `n`, value `v`. */
  lemma ParsePieceTruncates(n: string, v: string, w: string)
    requires '=' !in n && '=' !in v
    ensures ParsePiece(n + "=" + v + "=" + w) == Some(QueryItem(n, Some(v)))
  {
    var piece := n + "=" + v + "=" + w;
    var parts := [n, v] + Split(w, '=');
    assert Join(parts, '=') == piece by {
      assert parts[1..] == [v] + Split(w, '=');
      assert parts[1..][1..] == Split(w, '=');
    }
    SplitJoin(parts, '=');
  }

  /** The query items of a query string split on `&`: one per piece that has an `=`, in order. */
  function ParseQueryItems(pieces: seq<string>): (r: seq<QueryItem>)
    ensures |r| <= |pieces|
    ensures forall i :: 0 <= i < |r| ==> r[i].value.Some?
    ensures forall i :: 0 <= i < |r| ==> '=' !in r[i].name && '=' !in r[i].value.value
  {
    if |pieces| == 0 then []
    else
      var head := match ParsePiece(pieces[0]) case Some(q) => [q] case None => [];
      head + ParseQueryItems(pieces[1..])
  }

  /** Parsing pieces distributes over concatenation. */
  lemma {:induction false} ParseQueryItemsAppend(a: seq<string>, b: seq<string>)
    ensures ParseQueryItems(a + b) == ParseQueryItems(a) + ParseQueryItems(b)
    decreases |a|
  {
    if |a| > 0 {
      var head := match ParsePiece(a[0]) case Some(q) => [q] case None => [];
      assert (a + b)[0] == a[0];
      assert (a + b)[1..] == a[1..] + b;
      assert ParseQueryItems(a + b) == head + ParseQueryItems(a[1..] + b);
      assert ParseQueryItems(a) == head + ParseQueryItems(a[1..]);
      ParseQueryItemsAppend(a[1..], b);
    } else {
      assert a + b == b;
    }
  }

  /** Parsing the rendered pairs recovers exactly the items that had a value, when no name or value contains `=`. */
  lemma {:induction false} ParseRenderedItems(qs: seq<QueryItem>)
    requires forall i :: 0 <= i < |qs| ==> '=' !in qs[i].name
    requires forall i :: 0 <= i < |qs| ==> qs[i].value.Some? ==> '=' !in qs[i].value.value
    ensures ParseQueryItems(RenderItems(qs)) == Present(qs)
    decreases |qs|
  {
    if |qs| > 0 {
      var q := qs[0];
      ParseRenderedItems(qs[1..]);
      assert qs == [q] + qs[1..];
      RenderItemsCons(q, qs[1..]);
      var head := if q.value.Some? then [PairText(q)] else [];
      ParseQueryItemsAppend(head, RenderItems(qs[1..]));
      if q.value.Some? {
        ParsePiecePairText(q);
        assert ParseQueryItems(head) == [q] + ParseQueryItems([]);
      }
    }
  }

  /**
   Everything after the base-URL check. When `trimmed` contains `/` it is read
   as endpoint and path components; otherwise, when it contains `?`, as
   endpoint and query items; otherwise nothing is recovered.
   */
  function ParseTrimmed(svc: Service, trimmed: string): (r: Option<Request>)
    requires Configured(svc)
    ensures r.Some? ==> r.value.endpoint == Users && r.value.httpMethod == Get
    ensures r.Some? ==> r.value.pathComponents == [] || r.value.queryParams == []
    ensures r.Some? ==> NoneContains(r.value.pathComponents, '/')
    ensures r.Some? ==> forall i :: 0 <= i < |r.value.queryParams| ==> r.value.queryParams[i].value.Some?
  {
    ContainsChar(trimmed, '/');
    if Contains(trimmed, "/") then
      var components := Split(trimmed, '/');
      var pathComponents := if |components| > 1 then components[1..] else [];
      match FromRaw(components[0])
      case Some(e) => Some(InitAsWritten(svc, Get, e, pathComponents, []))
      case None => None
    else if Contains(trimmed, "?") then
      var components := Split(trimmed, '?');
      match FromRaw(components[0])
      case Some(e) =>
        var queryString := ReplaceAll(trimmed, Raw(e) + "?", "");
        Some(InitAsWritten(svc, Get, e, [], ParseQueryItems(Split(queryString, '&'))))
      case None => None
    else None
  }

  /** The input with every occurrence of `baseUrl + "/"` removed. */
  function Trimmed(base: string, url: string): string
  {
    ReplaceAll(url, base + "/", "")
  }

  /**
   The reverse parser. The input must contain the base URL somewhere (a
   substring test, not a prefix test); the result never has the
   `repositories` endpoint, always has the GET method, and never has both path
   components and query items.
   */
  function FromUrl(svc: Service, url: string): (r: Option<Request>)
    requires Configured(svc)
    ensures r.Some? ==> Contains(url, svc.baseUrl.value)
    ensures r.Some? ==> r.value.endpoint == Users && r.value.httpMethod == Get
    ensures r.Some? ==> r.value.pathComponents == [] || r.value.queryParams == []
    ensures r.Some? ==> NoneContains(r.value.pathComponents, '/')
    ensures r.Some? ==> forall i :: 0 <= i < |r.value.queryParams| ==> r.value.queryParams[i].value.Some?
  {
    var base := svc.baseUrl.value;
    if !Contains(url, base) then None
    else ParseTrimmed(svc, Trimmed(base, url))
  }

  /**
   The path branch: with a `/` present, a request is recovered exactly when
   the text starts with `users/`; it then has no query items, and joining the
   endpoint segment and the path components with `/` gives the text back, so
   any `?query` stays inside the last component.
   */
  lemma PathBranch(svc: Service, t: string)
    requires Configured(svc) && '/' in t
    ensures ParseTrimmed(svc, t).Some? <==> IsPrefix("users/", t)
    ensures ParseTrimmed(svc, t).Some? ==>
      var req := ParseTrimmed(svc, t).value;
      req.queryParams == [] && |req.pathComponents| >= 1
      && Join([Raw(Users)] + req.pathComponents, '/') == t
  {
    ContainsChar(t, '/');
    var components := Split(t, '/');
    assert |components| >= 2;
    if IsPrefix("users/", t) {
      assert "users/" == "users" + ['/'];
      SplitHead(t, "users", '/');
    }
    if ParseTrimmed(svc, t).Some? {
      assert components[0] == "users";
      SplitFirst(t, '/');
      assert components == [components[0]] + components[1..];
    }
  }

  /**
   The query branch: with no `/` but a `?`, a request is recovered exactly
   when the text starts with `users?`, and it has no path components.
   */
  lemma QueryBranch(svc: Service, t: string)
    requires Configured(svc) && '/' !in t && '?' in t
    ensures ParseTrimmed(svc, t).Some? <==> IsPrefix("users?", t)
    ensures ParseTrimmed(svc, t).Some? ==> ParseTrimmed(svc, t).value.pathComponents == []
  {
    ContainsChar(t, '/');
    ContainsChar(t, '?');
    var components := Split(t, '?');
    if IsPrefix("users?", t) {
      assert "users?" == "users" + ['?'];
      SplitHead(t, "users", '?');
    }
    if ParseTrimmed(svc, t).Some? {
      assert components[0] == "users";
      SplitFirst(t, '?');
    }
  }

  /** With neither `/` nor `?` nothing is recovered, not even a bare endpoint. */
  lemma NeitherSeparator(svc: Service, t: string)
    requires Configured(svc) && '/' !in t && '?' !in t
    ensures ParseTrimmed(svc, t) == None
  {
    ContainsChar(t, '/');
    ContainsChar(t, '?');
  }

  /** An input that does not contain the base URL is rejected. */
  lemma RejectsForeignUrl(svc: Service, url: string)
    requires Configured(svc) && !Contains(url, svc.baseUrl.value)
    ensures FromUrl(svc, url) == None
  {
  }
}

=== FILE: request.dfy ===
/**
 A request description (`APIRequest`): an endpoint, extra path components,
 query items and an HTTP method, with its rendering to a URL string. The
 process-wide base URL held by `APIService.shared` is passed in as a `Service`
 value; a missing base URL, which stops the process in the Swift code, is a
 precondition here.
 */
module Requests {
  import opened Wrappers
  import opened Strings
  import opened Endpoints

  /** The HTTP methods a request may carry. */
  datatype HttpMethod = Get | Put | Head | Post | Delete | Connect | Options | Trace

  /** The method's name on the wire. */
  function MethodRaw(m: HttpMethod): (r: string)
    ensures |r| >= 3
    ensures forall i :: 0 <= i < |r| ==> 'A' <= r[i] <= 'Z'
  {
    match m
    case Get => "GET"
    case Put => "PUT"
    case Head => "HEAD"
    case Post => "POST"
    case Delete => "DELETE"
    case Connect => "CONNECT"
    case Options => "OPTIONS"
    case Trace => "TRACE"
  }

  /** The failable `init(rawValue:)` of the method enum: the method named `s`, if any. */
  function MethodFromRaw(s: string): (r: Option<HttpMethod>)
    ensures forall m :: r == Some(m) <==> MethodRaw(m) == s
  {
    if s == "GET" then Some(Get)
    else if s == "PUT" then Some(Put)
    else if s == "HEAD" then Some(Head)
    else if s == "POST" then Some(Post)
    else if s == "DELETE" then Some(Delete)
    else if s == "CONNECT" then Some(Connect)
    else if s == "OPTIONS" then Some(Options)
    else if s == "TRACE" then Some(Trace)
    else None
  }

  /** A `URLQueryItem`: a name and an optional value. */
  datatype QueryItem = QueryItem(name: string, value: Option<string>)

  datatype Request = Request(
    endpoint: Endpoint,
    pathComponents: seq<string>,
    queryParams: seq<QueryItem>,
    httpMethod: HttpMethod)

  /** The configuration read by every request: the base URL, if one was set. */
  datatype Service = Service(baseUrl: Option<string>)

  predicate Configured(svc: Service) {
    svc.baseUrl.Some?
  }

  /**
   The designated initializer exactly as written: it stores the endpoint, path
   components and query items, but never assigns its `httpMethod` argument, so
   the stored method keeps its declared default, GET.
   */
  function InitAsWritten(
    svc: Service, httpMethod: HttpMethod, endpoint: Endpoint,
    pathComponents: seq<string>, queryParams: seq<QueryItem>): (r: Request)
    requires Configured(svc)
    ensures r.endpoint == endpoint
    ensures r.pathComponents == pathComponents
    ensures r.queryParams == queryParams
    ensures r.httpMethod == Get
  {
    Request(endpoint, pathComponents, queryParams, Get)
  }

  /** Any method other than GET passed to the initializer as written is lost. */
  lemma InitAsWrittenDropsMethod(
    svc: Service, m: HttpMethod, e: Endpoint, pc: seq<string>, qs: seq<QueryItem>)
    requires Configured(svc) && m != Get
    ensures InitAsWritten(svc, m, e, pc, qs).httpMethod != m
  {
  }

  /** The designated initializer as evidently intended: every argument is stored. */
  function Init(
    svc: Service, httpMethod: HttpMethod, endpoint: Endpoint,
    pathComponents: seq<string>, queryParams: seq<QueryItem>): (r: Request)
    requires Configured(svc)
    ensures r.endpoint == endpoint
    ensures r.pathComponents == pathComponents
    ensures r.queryParams == queryParams
    ensures r.httpMethod == httpMethod
  {
    Request(endpoint, pathComponents, queryParams, httpMethod)
  }

  /** With the default method, the initializer as written and as intended agree. */
  lemma InitAgreesOnDefault(
    svc: Service, m: HttpMethod, e: Endpoint, pc: seq<string>, qs: seq<QueryItem>)
    requires Configured(svc)
    ensures Init(svc, Get, e, pc, qs) == InitAsWritten(svc, m, e, pc, qs)
  {
  }

  /** The query items that have a value, in their original order. */
  function Present(qs: seq<QueryItem>): (r: seq<QueryItem>)
    ensures |r| <= |qs|
    ensures forall i :: 0 <= i < |r| ==> r[i].value.Some?
  {
    if |qs| == 0 then []
    else
      var rest := Present(qs[1..]);
      if qs[0].value.Some? then [qs[0]] + rest else rest
  }

  /** Only items that have a value are kept: with none, nothing is left; with all, everything. */
  lemma {:induction false} PresentExtremes(qs: seq<QueryItem>)
    ensures |Present(qs)| == 0 <==> forall i :: 0 <= i < |qs| ==> qs[i].value.None?
    ensures (forall i :: 0 <= i < |qs| ==> qs[i].value.Some?) ==> Present(qs) == qs
    decreases |qs|
  {
    if |qs| > 0 {
      PresentExtremes(qs[1..]);
      assert forall i :: 1 <= i < |qs| ==> qs[i] == qs[1..][i - 1];
      assert qs == [qs[0]] + qs[1..];
    }
  }

  /** The filter keeps exactly the items that have a value. */
  lemma {:induction false} PresentMembers(qs: seq<QueryItem>, q: QueryItem)
    ensures q in Present(qs) <==> q in qs && q.value.Some?
    decreases |qs|
  {
    if |qs| > 0 {
      PresentMembers(qs[1..], q);
      assert qs == [qs[0]] + qs[1..];
    }
  }

  /** The `name=value` text of an item that has a value. */
  function PairText(q: QueryItem): (r: string)
    requires q.value.Some?
    ensures '=' in r
  {
    var r := q.name + "=" + q.value.value;
    assert r[|q.name|] == '=';
    r
  }

  /**
   The `compactMap` over the query items: `name=value` for each item with a
   value, in order; items without a value contribute nothing, not even their name.
   */
  function RenderItems(qs: seq<QueryItem>): (r: seq<string>)
    ensures |r| <= |qs|
  {
    if |qs| == 0 then []
    else
      match qs[0].value
      case Some(v) => [qs[0].name + "=" + v] + RenderItems(qs[1..])
      case None => RenderItems(qs[1..])
  }

  /** `"/" + c` for each path component `c`, in order. */
  function PathSuffix(cs: seq<string>): (r: string)
    ensures |cs| == 0 ==> r == ""
    ensures |cs| > 0 ==> r == "/" + Join(cs, '/')
  {
    if |cs| == 0 then ""
    else "/" + cs[0] + PathSuffix(cs[1..])
  }

  /**
   The query part: nothing for an empty list, otherwise `"?"` followed by the
   rendered pairs joined with `&`.
   */
  function QuerySuffix(qs: seq<QueryItem>): (q: string)
    ensures q == "" <==> |qs| == 0
    ensures |qs| > 0 ==> q[0] == '?'
  {
    if |qs| == 0 then ""
    else "?" + Join(RenderItems(qs), '&')
  }

  /** The part of the URL string after `baseUrl + "/"`: it starts with the endpoint segment. */
  function Relative(r: Request): (rel: string)
    ensures IsPrefix(Raw(r.endpoint), rel)
  {
    var rel := Raw(r.endpoint) + PathSuffix(r.pathComponents) + QuerySuffix(r.queryParams);
    assert rel[..|Raw(r.endpoint)|] == Raw(r.endpoint);
    rel
  }

  /** The endpoint segment followed by the path suffix is the segment and the components joined by `/`. */
  lemma PathJoin(head: string, cs: seq<string>)
    ensures head + PathSuffix(cs) == Join([head] + cs, '/')
  {
    if |cs| > 0 {
      assert ([head] + cs)[1..] == cs;
    }
  }

  /** The rendered pairs, as one `name=value` text per kept item. */
  lemma RenderedPairs(qs: seq<QueryItem>)
    ensures var kept := Present(qs);
      RenderItems(qs) == seq(|kept|, i requires 0 <= i < |kept| => PairText(kept[i]))
  {
    RenderItemsArePresentPairs(qs);
  }

  /** The computed `urlString`: the base URL, `/`, then the relative part. */
  function UrlString(svc: Service, r: Request): (u: string)
    requires Configured(svc)
    ensures IsPrefix(svc.baseUrl.value + "/", u)
  {
    var base := svc.baseUrl.value;
    var u := base + "/" + Relative(r);
    assert u[..|base| + 1] == base + "/";
    u
  }

  /**
   The whole URL string: the base URL and `/`, the endpoint segment and the
   path components joined by `/`, then, for a non-empty query list, `?` and the
   `name=value` texts of the items that have a value, joined by `&`.
   */
  lemma UrlStringRendering(svc: Service, r: Request)
    requires Configured(svc)
    ensures var kept := Present(r.queryParams);
      UrlString(svc, r)
        == svc.baseUrl.value + "/" + Join([Raw(r.endpoint)] + r.pathComponents, '/')
           + (if |r.queryParams| == 0 then ""
              else "?" + Join(seq(|kept|, i requires 0 <= i < |kept| => PairText(kept[i])), '&'))
  {
    PathJoin(Raw(r.endpoint), r.pathComponents);
    RenderedPairs(r.queryParams);
  }


  /** Without query items nothing follows the last path component: the URL is the base, then the endpoint segment and the path components joined by `/`. */
  lemma NoQueryNoMark(svc: Service, r: Request)
    requires Configured(svc) && r.queryParams == []
    ensures UrlString(svc, r) == svc.baseUrl.value + "/" + Join([Raw(r.endpoint)] + r.pathComponents, '/')
  {
    var cs := [Raw(r.endpoint)] + r.pathComponents;
    if |r.pathComponents| > 0 {
      assert cs[1..] == r.pathComponents;
    }
  }

  /**
   A non-empty list whose items all lack a value still appends `?`, so the URL
   ends in a bare `?`.
   */
  lemma TrailingMark(svc: Service, r: Request)
    requires Configured(svc)
    requires |r.queryParams| > 0
    requires forall i :: 0 <= i < |r.queryParams| ==> r.queryParams[i].value.None?
    ensures UrlString(svc, r) == svc.baseUrl.value + "/" + Raw(r.endpoint) + PathSuffix(r.pathComponents) + "?"
  {
    RenderItemsArePresentPairs(r.queryParams);
    PresentExtremes(r.queryParams);
    assert RenderItems(r.queryParams) == [];
  }

  /**
   The rendered pairs are exactly the `name=value` texts of the items that have
   a value, one per such item, in order.
   */
  lemma {:induction false} RenderItemsArePresentPairs(qs: seq<QueryItem>)
    ensures |RenderItems(qs)| == |Present(qs)|
    ensures forall i :: 0 <= i < |RenderItems(qs)| ==> RenderItems(qs)[i] == PairText(Present(qs)[i])
    decreases |qs|
  {
    if |qs| > 0 {
      RenderItemsArePresentPairs(qs[1..]);
    }
  }

  /** One step of the rendering: the first item's pair, if it has a value, then the rest. */
  lemma RenderItemsCons(q: QueryItem, rest: seq<QueryItem>)
    ensures RenderItems([q] + rest) == (if q.value.Some? then [PairText(q)] else []) + RenderItems(rest)
  {
    assert ([q] + rest)[0] == q;
    assert ([q] + rest)[1..] == rest;
  }

  /** Removing an item that has no value does not change the filtered list. */
  lemma {:induction false} PresentSkipsNil(qs: seq<QueryItem>, i: nat)
    requires i < |qs| && qs[i].value.None?
    ensures Present(qs[..i] + qs[i + 1..]) == Present(qs)
    decreases i
  {
    if i > 0 {
      var tail := qs[1..];
      PresentSkipsNil(tail, i - 1);
      var rest := tail[..i - 1] + tail[i..];
      DropShift(qs, i);
      PresentCons(qs[0], rest);
      assert qs == [qs[0]] + tail;
      PresentCons(qs[0], tail);
    } else {
      assert qs[..0] + qs[1..] == qs[1..];
    }
  }

  /** Deleting index `i > 0` keeps the first element and deletes index `i - 1` of the rest. */
  lemma DropShift(qs: seq<QueryItem>, i: nat)
    requires 0 < i < |qs|
    ensures qs[..i] + qs[i + 1..] == [qs[0]] + (qs[1..][..i - 1] + qs[1..][i..])
  {
    assert qs[1..][..i - 1] == qs[1..i];
    assert qs[1..][i..] == qs[i + 1..];
    assert qs[..i] == [qs[0]] + qs[1..i];
  }

  /** One step of the filter: the first item, if it has a value, then the filtered rest. */
  lemma PresentCons(q: QueryItem, rest: seq<QueryItem>)
    ensures Present([q] + rest) == (if q.value.Some? then [q] else []) + Present(rest)
  {
    assert ([q] + rest)[0] == q;
    assert ([q] + rest)[1..] == rest;
  }

  /** The rendered pairs depend only on the items that have a value. */
  lemma RenderItemsOfPresent(a: seq<QueryItem>, b: seq<QueryItem>)
    requires Present(a) == Present(b)
    ensures RenderItems(a) == RenderItems(b)
  {
    var ra, rb := RenderItems(a), RenderItems(b);
    RenderItemsArePresentPairs(a);
    RenderItemsArePresentPairs(b);
    assert |ra| == |rb|;
    forall i | 0 <= i < |ra|
      ensures ra[i] == rb[i]
    {
    }
  }

  /** Removing an item that has no value changes neither the rendered pairs nor the URL. */
  lemma NilItemDropped(svc: Service, r: Request, i: nat)
    requires Configured(svc)
    requires i < |r.queryParams| && r.queryParams[i].value.None?
    requires |r.queryParams| > 1
    ensures var qs := r.queryParams;
      RenderItems(qs[..i] + qs[i + 1..]) == RenderItems(qs)
      && UrlString(svc, r.(queryParams := qs[..i] + qs[i + 1..])) == UrlString(svc, r)
  {
    var qs := r.queryParams;
    var rest := qs[..i] + qs[i + 1..];
    PresentSkipsNil(qs, i);
    RenderItemsOfPresent(rest, qs);
    assert QuerySuffix(rest) == QuerySuffix(qs);
    assert Relative(r.(queryParams := rest)) == Relative(r);
  }

  /** The method is not part of the URL. */
  lemma MethodNotInUrl(svc: Service, r: Request, m: HttpMethod)
    requires Configured(svc)
    ensures UrlString(svc, r.(httpMethod := m)) == UrlString(svc, r)
  {
  }


}

=== FILE: roundtrip.dfy ===
/**
 How rendering and reverse parsing relate: what survives a round trip, what is
 lost, and which requests can never come back.
 */
module RoundTrip {
  import opened Wrappers
  import opened Strings
  import opened Endpoints
  import opened Requests
  import opened RequestParsing

  /** Text that holds none of the characters with a meaning in the URL layout. */
  predicate Clean(s: string) {
    '/' !in s && '?' !in s && '&' !in s && '=' !in s
  }

  predicate CleanItem(q: QueryItem) {
    Clean(q.name) && (q.value.Some? ==> Clean(q.value.value))
  }

  predicate CleanItems(qs: seq<QueryItem>) {
    forall i :: 0 <= i < |qs| ==> CleanItem(qs[i])
  }

  /** `baseUrl + "/"` occurs in the rendered URL only at its front. */
  predicate BaseOnlyAtFront(svc: Service, r: Request)
    requires Configured(svc)
  {
    !Contains(Relative(r), svc.baseUrl.value + "/")
  }

  /** A rendered URL passes the base-URL check, and trimming leaves the relative part. */
  lemma TrimRendered(svc: Service, r: Request)
    requires Configured(svc) && BaseOnlyAtFront(svc, r)
    ensures FromUrl(svc, UrlString(svc, r)) == ParseTrimmed(svc, Relative(r))
  {
    var base := svc.baseUrl.value;
    var url := UrlString(svc, r);
    assert url == (base + "/") + Relative(r);
    assert Contains(url, base) by {
      assert url[..|base|] == base;
      assert IsPrefix(base, url);
    }
    assert Trimmed(base, url) == Relative(r) by {
      ReplaceAllFront(base + "/", Relative(r), "");
    }
    FromUrlTrimmed(svc, url, Relative(r));
  }

  /** A character outside `=` that no name or value holds is in no rendered pair. */
  lemma {:induction false} RenderItemsAvoid(qs: seq<QueryItem>, c: char)
    requires c != '='
    requires forall i :: 0 <= i < |qs| ==> c !in qs[i].name && (qs[i].value.Some? ==> c !in qs[i].value.value)
    ensures NoneContains(RenderItems(qs), c)
    decreases |qs|
  {
    if |qs| > 0 {
      RenderItemsAvoid(qs[1..], c);
      RenderItemsCons(qs[0], qs[1..]);
      assert qs == [qs[0]] + qs[1..];
    }
  }

  /** The query suffix of clean items holds no `/`, and nothing after its leading `?` holds a `?`. */
  lemma QuerySuffixClean(qs: seq<QueryItem>)
    requires |qs| > 0 && CleanItems(qs)
    ensures QuerySuffix(qs) == "?" + Join(RenderItems(qs), '&')
    ensures '/' !in Join(RenderItems(qs), '&') && '?' !in Join(RenderItems(qs), '&')
  {
    RenderItemsAvoid(qs, '/');
    RenderItemsAvoid(qs, '?');
    JoinAvoids(RenderItems(qs), '&', '/');
    JoinAvoids(RenderItems(qs), '&', '?');
  }

  /** Reverse parsing of an input that passes the base-URL check is parsing of its trimmed text. */
  lemma FromUrlTrimmed(svc: Service, url: string, t: string)
    requires Configured(svc) && Contains(url, svc.baseUrl.value)
    requires Trimmed(svc.baseUrl.value, url) == t
    ensures FromUrl(svc, url) == ParseTrimmed(svc, t)
  {
  }

  /** Path-style text that starts with the `users` segment parses to that endpoint and the remaining segments. */
  lemma ParseUsersPath(svc: Service, parts: seq<string>)
    requires Configured(svc)
    requires |parts| >= 2 && parts[0] == Raw(Users) && NoneContains(parts, '/')
    ensures ParseTrimmed(svc, Join(parts, '/')) == Some(Request(Users, parts[1..], [], Get))
  {
    var t := Join(parts, '/');
    JoinHasSeparator(parts, '/');
    ContainsChar(t, '/');
    SplitJoin(parts, '/');
  }

  /**
   Query-style text `users?q` parses to the items of `q`, with every `users?`
   removed, split on `&`, when `q` has no `/`.
   */
  lemma ParseUsersQueryText(svc: Service, q: string)
    requires Configured(svc) && '/' !in q
    ensures ParseTrimmed(svc, "users?" + q)
      == Some(Request(Users, [], ParseQueryItems(Split(ReplaceAll(q, "users?", ""), '&')), Get))
  {
    var t := "users?" + q;
    assert !Contains(t, "/") by {
      assert '/' !in t;
      ContainsChar(t, '/');
    }
    assert Contains(t, "?") by {
      assert t[5] == '?';
      ContainsChar(t, '?');
    }
    assert Split(t, '?')[0] == Raw(Users) by {
      assert t == ("users" + ['?']) + q;
      SplitHead(t, "users", '?');
    }
    assert ReplaceAll(t, Raw(Users) + "?", "") == ReplaceAll(q, "users?", "") by {
      assert Raw(Users) + "?" == "users?";
      ReplaceAllFront("users?", q, "");
    }
  }

  /** Query-style text `users?q` parses to the items of `q` split on `&`, when `q` has no `/` or `?`. */
  lemma ParseUsersQuery(svc: Service, q: string)
    requires Configured(svc) && '/' !in q && '?' !in q
    ensures ParseTrimmed(svc, "users?" + q) == Some(Request(Users, [], ParseQueryItems(Split(q, '&')), Get))
  {
    ParseUsersQueryText(svc, q);
    ContainsChar(q, '?');
    if Contains(q, "users?") {
      ContainsChars(q, "users?", '?');
    }
  }

  /** Splitting the joined pairs of clean items on `&` and parsing them gives the items that had a value. */
  lemma ParseJoinedPairs(qs: seq<QueryItem>)
    requires CleanItems(qs)
    ensures ParseQueryItems(Split(Join(RenderItems(qs), '&'), '&')) == Present(qs)
  {
    var pairs := RenderItems(qs);
    ParseRenderedItems(qs);
    if |pairs| > 0 {
      RenderItemsAvoid(qs, '&');
      SplitJoin(pairs, '&');
    } else {
      assert Split(Join(pairs, '&'), '&') == [""];
      assert ParseQueryItems([""]) == [] + ParseQueryItems([]);
    }
  }

  /**
   Round trip with path components and no query: rendering and parsing give
   back the endpoint and path components (with the default method), provided
   no component contains `/`.
   */
  lemma RoundTripPath(svc: Service, r: Request)
    requires Configured(svc) && BaseOnlyAtFront(svc, r)
    requires r.endpoint == Users && |r.pathComponents| > 0 && r.queryParams == []
    requires NoneContains(r.pathComponents, '/')
    ensures FromUrl(svc, UrlString(svc, r)) == Some(r.(httpMethod := Get))
  {
    TrimRendered(svc, r);
    var parts := [Raw(Users)] + r.pathComponents;
    assert parts[1..] == r.pathComponents;
    assert Relative(r) == Join(parts, '/');
    ParseUsersPath(svc, parts);
  }

  /**
   Round trip with a query and no path components: parsing gives back the
   endpoint and exactly the items that had a value, in order, provided no name
   or value contains `/`, `?`, `&` or `=`.
   */
  lemma RoundTripQuery(svc: Service, r: Request)
    requires Configured(svc) && BaseOnlyAtFront(svc, r)
    requires r.endpoint == Users && r.pathComponents == [] && |r.queryParams| > 0
    requires CleanItems(r.queryParams)
    ensures FromUrl(svc, UrlString(svc, r)) == Some(Request(Users, [], Present(r.queryParams), Get))
  {
    var qs := r.queryParams;
    var q := Join(RenderItems(qs), '&');
    assert ParseTrimmed(svc, Relative(r)) == Some(Request(Users, [], Present(qs), Get)) by {
      QuerySuffixClean(qs);
      assert Relative(r) == "users?" + q;
      ParseUsersQuery(svc, q);
      ParseJoinedPairs(qs);
    }
    TrimRendered(svc, r);
  }

  /** With every value present, the query round trip gives the items back unchanged. */
  lemma RoundTripQueryAllPresent(svc: Service, r: Request)
    requires Configured(svc) && BaseOnlyAtFront(svc, r)
    requires r.endpoint == Users && r.pathComponents == [] && |r.queryParams| > 0
    requires CleanItems(r.queryParams)
    requires forall i :: 0 <= i < |r.queryParams| ==> r.queryParams[i].value.Some?
    ensures FromUrl(svc, UrlString(svc, r)) == Some(r.(httpMethod := Get))
  {
    RoundTripQuery(svc, r);
    PresentExtremes(r.queryParams);
  }

  /**
   A URL rendered from items that all lack a value ends in a bare `?`, and
   parses back to a request with no query items at all, whatever the names of
   the dropped items hold.
   */
  lemma TrailingMarkRoundTrip(svc: Service, r: Request)
    requires Configured(svc)
    requires r.endpoint == Users && r.pathComponents == [] && |r.queryParams| > 0
    requires forall i :: 0 <= i < |r.queryParams| ==> r.queryParams[i].value.None?
    ensures FromUrl(svc, UrlString(svc, r)) == Some(Request(Users, [], [], Get))
  {
    assert Relative(r) == "users?" by {
      TrailingMark(svc, r);
    }
    assert BaseOnlyAtFront(svc, r) by {
      ContainsChar(Relative(r), '/');
      if Contains(Relative(r), svc.baseUrl.value + "/") {
        ContainsChars(Relative(r), svc.baseUrl.value + "/", '/');
      }
    }
    TrimRendered(svc, r);
    assert "users?" == "users?" + "";
    ParseUsersQuery(svc, "");
    assert ParseQueryItems(Split("", '&')) == [] by {
      assert Split("", '&') == [""];
      assert ParseQueryItems([""]) == [] + ParseQueryItems([]);
    }
  }

  /** The relative part of a `users` request with components is their `/`-join with the query suffix glued to the last one. */
  lemma GluedRelative(r: Request)
    requires r.endpoint == Users && |r.pathComponents| > 0
    ensures var pc := r.pathComponents; var n := |pc|;
      Relative(r) == Join([Raw(Users)] + (pc[..n - 1] + [pc[n - 1] + QuerySuffix(r.queryParams)]), '/')
  {
    var pc := r.pathComponents;
    var suffix := QuerySuffix(r.queryParams);
    var parts := [Raw(Users)] + pc;
    assert parts[1..] == pc;
    assert Relative(r) == Join(parts, '/') + suffix;
    JoinAppendLast(parts, '/', suffix);
    assert parts[..|parts| - 1] + [parts[|parts| - 1] + suffix]
      == [Raw(Users)] + (pc[..|pc| - 1] + [pc[|pc| - 1] + suffix]);
  }

  /**
   The path branch takes precedence: with both path components and a query,
   the query items are lost and the whole query text, `?` included, ends up
   glued to the last path component.
   */
  lemma PathWinsOverQuery(svc: Service, r: Request)
    requires Configured(svc) && BaseOnlyAtFront(svc, r)
    requires r.endpoint == Users && |r.pathComponents| > 0 && |r.queryParams| > 0
    requires NoneContains(r.pathComponents, '/') && CleanItems(r.queryParams)
    ensures var pc := r.pathComponents; var n := |pc|;
      FromUrl(svc, UrlString(svc, r))
        == Some(Request(Users, pc[..n - 1] + [pc[n - 1] + QuerySuffix(r.queryParams)], [], Get))
  {
    var pc := r.pathComponents;
    var n := |pc|;
    var suffix := QuerySuffix(r.queryParams);
    var glued := pc[..n - 1] + [pc[n - 1] + suffix];
    var gluedParts := [Raw(Users)] + glued;
    GluedRelative(r);
    assert ParseTrimmed(svc, Join(gluedParts, '/')) == Some(Request(Users, glued, [], Get)) by {
      QuerySuffixClean(r.queryParams);
      assert '/' !in suffix;
      assert NoneContains(gluedParts, '/');
      ParseUsersPath(svc, gluedParts);
      assert gluedParts[1..] == glued;
    }
    TrimRendered(svc, r);
  }

  /**
   A rendered `repositories` URL whose relative part holds no `base/` never
   parses: its first segment is `search`. Without that condition it can parse
   as a `users` request, as `RepositoriesReadAsUsers` shows.
   */
  lemma RepositoriesNotRecovered(svc: Service, r: Request)
    requires Configured(svc) && BaseOnlyAtFront(svc, r)
    requires r.endpoint == Repositories
    ensures FromUrl(svc, UrlString(svc, r)) == None
  {
    TrimRendered(svc, r);
    var t := Relative(r);
    assert IsPrefix(Raw(Repositories), t);
    RepositoriesText(t);
    PathBranch(svc, t);
  }

  /**
   A relative part that itself starts with `base/` loses that copy too:
   parsing the rendered URL is parsing of what follows it.
   */
  lemma TrimDoubledBase(svc: Service, r: Request, rest: string)
    requires Configured(svc)
    requires Relative(r) == svc.baseUrl.value + "/" + rest
    requires !Contains(rest, svc.baseUrl.value + "/")
    ensures FromUrl(svc, UrlString(svc, r)) == ParseTrimmed(svc, rest)
  {
    var base := svc.baseUrl.value;
    var pat := base + "/";
    var url := UrlString(svc, r);
    assert url == pat + (pat + rest);
    assert Contains(url, base) by {
      assert url[..|base|] == base;
      assert IsPrefix(base, url);
    }
    assert Trimmed(base, url) == rest by {
      ReplaceAllFront(pat, pat + rest, "");
      ReplaceAllFront(pat, rest, "");
    }
    FromUrlTrimmed(svc, url, rest);
  }

  /**
   With the base URL `search/repositories`, the `repositories` request with
   components `users` and `x` renders as
   `search/repositories/search/repositories/users/x`; deleting every `base/`
   leaves `users/x`, which parses as a `users` request.
   */
  lemma RepositoriesReadAsUsers(svc: Service, r: Request)
    requires svc.baseUrl == Some(Raw(Repositories))
    requires r == Request(Repositories, ["users", "x"], [], Get)
    ensures FromUrl(svc, UrlString(svc, r)) == Some(Request(Users, ["x"], [], Get))
  {
    var pat := svc.baseUrl.value + "/";
    var parts := ["users", "x"];
    var rest := Join(parts, '/');
    assert rest == "users/x" by {
      assert parts[1..] == ["x"];
    }
    assert Relative(r) == pat + rest by {
      assert PathSuffix(["x"]) == "/x";
      assert PathSuffix(r.pathComponents) == "/users" + "/x";
    }
    assert !Contains(rest, pat) by {
      if Contains(rest, pat) {
        assert pat[2] == 'a';
        ContainsChars(rest, pat, 'a');
      }
    }
    TrimDoubledBase(svc, r, rest);
    ParseUsersPath(svc, parts);
    assert parts[1..] == ["x"];
  }

  /** Text that starts with the `repositories` segment has a `/` but does not start with `users/`. */
  lemma RepositoriesText(t: string)
    requires IsPrefix("search/repositories", t)
    ensures '/' in t && !IsPrefix("users/", t)
  {
    assert t[6] == "search/repositories"[6];
    assert t[0] == 's';
  }

  /**
   A request with neither path components nor query items does not survive the
   round trip. For `users` this holds for every base URL; a `repositories`
   request needs `base/` only at the front, as in `RepositoriesNotRecovered`.
   */
  lemma BareEndpointNotRecovered(svc: Service, r: Request)
    requires Configured(svc) && (r.endpoint == Users || BaseOnlyAtFront(svc, r))
    requires r.pathComponents == [] && r.queryParams == []
    ensures FromUrl(svc, UrlString(svc, r)) == None
  {
    if r.endpoint == Repositories {
      RepositoriesNotRecovered(svc, r);
    } else {
      assert BaseOnlyAtFront(svc, r) by {
        assert Relative(r) == "users";
        ContainsChar(Relative(r), '/');
        if Contains(Relative(r), svc.baseUrl.value + "/") {
          ContainsChars(Relative(r), svc.baseUrl.value + "/", '/');
        }
      }
      TrimRendered(svc, r);
      NeitherSeparator(svc, Relative(r));
    }
  }

  /**
   Every occurrence of `baseUrl + "/"` is removed, not just the first: a URL
   that repeats the base parses like the plain one.
   */
  lemma RepeatedBaseIgnored(svc: Service, r: Request)
    requires Configured(svc)
    ensures FromUrl(svc, svc.baseUrl.value + "/" + UrlString(svc, r)) == FromUrl(svc, UrlString(svc, r))
  {
    var base := svc.baseUrl.value;
    var pat := base + "/";
    var url := UrlString(svc, r);
    var twice := pat + url;
    assert url == pat + Relative(r);
    assert Contains(url, base) by {
      assert url[..|base|] == base;
      assert IsPrefix(base, url);
    }
    assert Contains(twice, base) by {
      assert twice[..|base|] == base;
      assert IsPrefix(base, twice);
    }
    assert Trimmed(base, twice) == Trimmed(base, url) by {
      ReplaceAllFront(pat, url, "");
    }
    FromUrlTrimmed(svc, url, Trimmed(base, url));
    FromUrlTrimmed(svc, twice, Trimmed(base, url));
  }
}

=== FILE: strings.dfy ===
/**
 The Foundation string operations the request code relies on, over `seq<char>`:
 the substring test `contains(_:)`, `replacingOccurrences(of:with:)`,
 `components(separatedBy:)` for a one-character separator, and
 `joined(separator:)`.
 */
module Strings {

  /** `p` is a prefix of `s`. */
  predicate IsPrefix(p: string, s: string) {
    |p| <= |s| && s[..|p|] == p
  }

  /** `p` occurs in `s` starting at index `i`. */
  predicate OccursAt(s: string, p: string, i: int) {
    0 <= i <= |s| - |p| && s[i..i + |p|] == p
  }

  /** Substring test: `p` occurs somewhere in `s` (the empty string occurs in every string). */
  predicate Contains(s: string, p: string)
    decreases |s|
  {
    IsPrefix(p, s) || (|s| > 0 && Contains(s[1..], p))
  }

  /** `Contains` agrees with the positional definition of a substring, in both directions. */
  lemma {:induction false} ContainsIff(s: string, p: string)
    ensures Contains(s, p) <==> exists i :: OccursAt(s, p, i)
    decreases |s|
  {
    if Contains(s, p) {
      if IsPrefix(p, s) {
        assert OccursAt(s, p, 0);
      } else {
        ContainsIff(s[1..], p);
        var j :| OccursAt(s[1..], p, j);
        assert s[1..][j..j + |p|] == s[j + 1..j + 1 + |p|];
        assert OccursAt(s, p, j + 1);
      }
    }
    if i :| OccursAt(s, p, i) {
      if i == 0 {
        assert IsPrefix(p, s);
      } else {
        assert s[1..][i - 1..i - 1 + |p|] == s[i..i + |p|];
        assert OccursAt(s[1..], p, i - 1);
        ContainsIff(s[1..], p);
      }
    }
  }

  /** For a one-character pattern the substring test is membership. */
  lemma {:induction false} ContainsChar(s: string, c: char)
    ensures Contains(s, [c]) <==> c in s
    decreases |s|
  {
    if |s| > 0 {
      ContainsChar(s[1..], c);
      assert s == [s[0]] + s[1..];
    }
  }

  /** A string contains every character of every string it contains. */
  lemma {:induction false} ContainsChars(s: string, p: string, c: char)
    requires Contains(s, p) && c in p
    ensures c in s
    decreases |s|
  {
    if IsPrefix(p, s) {
      assert s == p + s[|p|..];
    } else {
      ContainsChars(s[1..], p, c);
    }
  }

  /**
   Replaces every non-overlapping occurrence of `pat` in `s`, scanning left to
   right, by `rep`; an empty pattern leaves `s` unchanged.
   */
  function ReplaceAll(s: string, pat: string, rep: string): (r: string)
    ensures !Contains(s, pat) ==> r == s
    ensures |rep| <= |pat| ==> |r| <= |s|
    decreases |s|
  {
    if |pat| == 0 || |s| == 0 then s
    else if IsPrefix(pat, s) then rep + ReplaceAll(s[|pat|..], pat, rep)
    else [s[0]] + ReplaceAll(s[1..], pat, rep)
  }

  /** An occurrence at the very front is the first one replaced. */
  lemma ReplaceAllFront(pat: string, rest: string, rep: string)
    requires |pat| > 0
    ensures ReplaceAll(pat + rest, pat, rep) == rep + ReplaceAll(rest, pat, rep)
  {
    assert (pat + rest)[..|pat|] == pat;
    assert (pat + rest)[|pat|..] == rest;
  }

  /** Where the pattern does not start the text, the first character is kept as it is. */
  lemma ReplaceAllSkip(s: string, pat: string, rep: string)
    requires |pat| > 0 && |s| > 0 && !IsPrefix(pat, s)
    ensures ReplaceAll(s, pat, rep) == [s[0]] + ReplaceAll(s[1..], pat, rep)
  {
  }

  /** Replacing introduces no character that is in neither the text nor the replacement. */
  lemma {:induction false} ReplaceAllChars(s: string, pat: string, rep: string, c: char)
    requires c in ReplaceAll(s, pat, rep)
    ensures c in s || c in rep
    decreases |s|
  {
    if |pat| > 0 && |s| > 0 {
      if IsPrefix(pat, s) {
        if c !in rep {
          ReplaceAllChars(s[|pat|..], pat, rep, c);
          assert s == s[..|pat|] + s[|pat|..];
        }
      } else if c != s[0] {
        ReplaceAllChars(s[1..], pat, rep, c);
        assert s == [s[0]] + s[1..];
      }
    }
  }

  /** When the pattern occurs and the replacement is shorter, replacing makes the text strictly shorter. */
  lemma {:induction false} ReplaceAllShrinks(s: string, pat: string, rep: string)
    requires |pat| > 0 && |rep| < |pat| && Contains(s, pat)
    ensures |ReplaceAll(s, pat, rep)| < |s|
    decreases |s|
  {
    if !IsPrefix(pat, s) {
      ReplaceAllShrinks(s[1..], pat, rep);
    }
  }

  /** Dropping the first character moves a later leftmost occurrence one place to the left. */
  lemma LeftmostShift(s: string, pat: string, i: nat)
    requires |pat| > 0 && 0 < i && OccursAt(s, pat, i)
    requires forall j :: 0 <= j < i ==> !OccursAt(s, pat, j)
    ensures !IsPrefix(pat, s)
    ensures OccursAt(s[1..], pat, i - 1)
    ensures forall j :: 0 <= j < i - 1 ==> !OccursAt(s[1..], pat, j)
  {
    assert !OccursAt(s, pat, 0);
    var t := s[1..];
    assert t[i - 1..i - 1 + |pat|] == s[i..i + |pat|];
    forall j | 0 <= j < i - 1
      ensures !OccursAt(t, pat, j)
    {
      assert !OccursAt(s, pat, j + 1);
      assert t[j..j + |pat|] == s[j + 1..j + 1 + |pat|];
    }
  }

  /**
   The leftmost occurrence is the first one replaced: everything before it is
   copied, it becomes `rep`, and the scan resumes right after it.
   */
  lemma {:induction false} ReplaceAllLeftmost(s: string, pat: string, rep: string, i: nat)
    requires |pat| > 0 && OccursAt(s, pat, i)
    requires forall j :: 0 <= j < i ==> !OccursAt(s, pat, j)
    ensures ReplaceAll(s, pat, rep) == s[..i] + rep + ReplaceAll(s[i + |pat|..], pat, rep)
    decreases i
  {
    if i == 0 {
      assert IsPrefix(pat, s);
      assert s[..i] == [];
    } else {
      LeftmostShift(s, pat, i);
      var t := s[1..];
      ReplaceAllLeftmost(t, pat, rep, i - 1);
      assert t[..i - 1] == s[1..i];
      assert t[i - 1 + |pat|..] == s[i + |pat|..];
      LeftmostStep(s, pat, rep, i, ReplaceAll(s[i + |pat|..], pat, rep));
    }
  }

  /** The inductive step of `ReplaceAllLeftmost`: a skipped first character is put back in front. */
  lemma LeftmostStep(s: string, pat: string, rep: string, i: nat, tail: string)
    requires |pat| > 0 && 0 < i <= |s| && !IsPrefix(pat, s)
    requires ReplaceAll(s[1..], pat, rep) == s[1..i] + rep + tail
    ensures ReplaceAll(s, pat, rep) == s[..i] + rep + tail
  {
    ReplaceAllSkip(s, pat, rep);
    assert s[..i] == [s[0]] + s[1..i];
    ConsAssoc(s[0], s[1..i], rep, tail);
  }

  /** Regrouping a character put in front of a three-part concatenation. */
  lemma ConsAssoc(c: char, a: string, b: string, d: string)
    ensures [c] + (a + b + d) == ([c] + a) + b + d
  {
  }

  /** Text that cannot start the pattern is copied unchanged ahead of the replaced rest. */
  lemma {:induction false} ReplaceAllAfterLead(lead: string, rest: string, pat: string, rep: string)
    requires |pat| > 0 && pat[0] !in lead
    ensures ReplaceAll(lead + rest, pat, rep) == lead + ReplaceAll(rest, pat, rep)
    decreases |lead|
  {
    if |lead| > 0 {
      var s := lead + rest;
      assert s[0] == lead[0] && s[1..] == lead[1..] + rest;
      ReplaceAllSkip(s, pat, rep);
      ReplaceAllAfterLead(lead[1..], rest, pat, rep);
      assert lead == [lead[0]] + lead[1..];
    } else {
      assert lead + rest == rest;
    }
  }

  /** `joined(separator:)`: the parts with `sep` between neighbours. */
  function Join(parts: seq<string>, sep: char): (r: string)
    ensures |parts| == 0 ==> r == ""
    ensures |parts| > 0 ==> IsPrefix(parts[0], r)
    ensures |parts| > 1 ==> |r| > |parts[0]| && r[|parts[0]|] == sep
  {
    if |parts| == 0 then ""
    else if |parts| == 1 then parts[0]
    else parts[0] + [sep] + Join(parts[1..], sep)
  }

  /** No piece of `parts` mentions `c`. */
  predicate NoneContains(parts: seq<string>, c: char) {
    forall i :: 0 <= i < |parts| ==> c !in parts[i]
  }

  /**
   `components(separatedBy:)` with a one-character separator: the pieces of `s`
   between separators. There is always at least one piece, and empty pieces are kept.
   */
  function Split(s: string, sep: char): (r: seq<string>)
    ensures |r| >= 1
    ensures NoneContains(r, sep)
    ensures Join(r, sep) == s
    ensures |r| == 1 <==> sep !in s
    ensures forall i, c :: 0 <= i < |r| && c in r[i] ==> c in s
    decreases |s|
  {
    if |s| == 0 then [""]
    else
      var rest := Split(s[1..], sep);
      if s[0] == sep then
        SplitAtSeparator(s, sep, rest);
        [""] + rest
      else
        SplitAtOther(s, sep, rest);
        [[s[0]] + rest[0]] + rest[1..]
  }

  /** A leading separator opens an empty first piece ahead of the pieces of the rest. */
  lemma SplitAtSeparator(s: string, sep: char, rest: seq<string>)
    requires |s| > 0 && s[0] == sep
    requires |rest| >= 1 && NoneContains(rest, sep) && Join(rest, sep) == s[1..]
    requires forall i, c :: 0 <= i < |rest| && c in rest[i] ==> c in s[1..]
    ensures var r := [""] + rest;
      |r| >= 2 && NoneContains(r, sep) && Join(r, sep) == s && sep in s
      && (forall i, c :: 0 <= i < |r| && c in r[i] ==> c in s)
  {
    var r := [""] + rest;
    assert r[1..] == rest;
    assert s == [s[0]] + s[1..];
    assert Join(r, sep) == "" + [sep] + Join(rest, sep);
    forall i, c | 0 <= i < |r| && c in r[i]
      ensures c in s
    {
      assert i > 0 && r[i] == rest[i - 1];
    }
  }

  /** Text put in front of the first piece ends up in front of the joined string. */
  lemma JoinExtendFirst(a: string, parts: seq<string>, sep: char)
    requires |parts| >= 1
    ensures Join([a + parts[0]] + parts[1..], sep) == a + Join(parts, sep)
  {
    var ext := [a + parts[0]] + parts[1..];
    assert ext[1..] == parts[1..];
    if |parts| > 1 {
      assert Join(ext, sep) == (a + parts[0]) + [sep] + Join(parts[1..], sep);
      assert Join(parts, sep) == parts[0] + [sep] + Join(parts[1..], sep);
    }
  }

  /** A leading character other than the separator joins the first piece of the rest. */
  lemma SplitAtOther(s: string, sep: char, rest: seq<string>)
    requires |s| > 0 && s[0] != sep
    requires |rest| >= 1 && NoneContains(rest, sep) && Join(rest, sep) == s[1..]
    requires |rest| == 1 <==> sep !in s[1..]
    requires forall i, c :: 0 <= i < |rest| && c in rest[i] ==> c in s[1..]
    ensures var r := [[s[0]] + rest[0]] + rest[1..];
      |r| == |rest| && NoneContains(r, sep) && Join(r, sep) == s
      && (|r| == 1 <==> sep !in s)
      && (forall i, c :: 0 <= i < |r| && c in r[i] ==> c in s)
  {
    assert s == [s[0]] + s[1..];
    JoinExtendFirst([s[0]], rest, sep);
    ExtendFirstAvoids(s[0], rest, sep);
    ExtendFirstChars(s, rest);
  }

  /** Putting a character other than `sep` in front of the first piece keeps every piece free of `sep`. */
  lemma ExtendFirstAvoids(c: char, rest: seq<string>, sep: char)
    requires c != sep && |rest| >= 1 && NoneContains(rest, sep)
    ensures NoneContains([[c] + rest[0]] + rest[1..], sep)
  {
    var r := [[c] + rest[0]] + rest[1..];
    forall i | 0 <= i < |r|
      ensures sep !in r[i]
    {
      if i > 0 {
        assert r[i] == rest[i];
      }
    }
  }

  /** Pieces of `s[1..]`, the first extended by `s[0]`, hold only characters of `s`. */
  lemma ExtendFirstChars(s: string, rest: seq<string>)
    requires |s| > 0 && |rest| >= 1
    requires forall i, c :: 0 <= i < |rest| && c in rest[i] ==> c in s[1..]
    ensures var r := [[s[0]] + rest[0]] + rest[1..];
      forall i, c :: 0 <= i < |r| && c in r[i] ==> c in s
  {
    var r := [[s[0]] + rest[0]] + rest[1..];
    forall i, c | 0 <= i < |r| && c in r[i]
      ensures c in s
    {
      assert s == [s[0]] + s[1..];
      if i > 0 {
        assert r[i] == rest[i];
      } else if c != s[0] {
        assert c in rest[0];
      }
    }
  }

  /** The piece before the first separator, followed by that separator, starts `s`. */
  lemma SplitFirst(s: string, sep: char)
    requires sep in s
    ensures IsPrefix(Split(s, sep)[0] + [sep], s)
  {
    var r := Split(s, sep);
    assert |r| >= 2;
    assert Join(r, sep) == r[0] + [sep] + Join(r[1..], sep);
  }

  /** Index of the first occurrence of `c` in `s`. */
  function IndexOf(s: string, c: char): (k: nat)
    requires c in s
    ensures k < |s| && s[k] == c && c !in s[..k]
  {
    if s[0] == c then 0
    else
      assert c in s[1..];
      var k := 1 + IndexOf(s[1..], c);
      assert s[..k] == [s[0]] + s[1..][..k - 1];
      k
  }

  /** A separator-free string followed by the separator that starts `s` ends where the first separator is. */
  lemma {:induction false} PrefixBeforeSeparator(a: string, sep: char, s: string)
    requires sep !in a && IsPrefix(a + [sep], s)
    ensures sep in s && IndexOf(s, sep) == |a| && a == s[..|a|]
    decreases |a|
  {
    assert s[|a|] == (a + [sep])[|a|] == sep;
    if |a| > 0 {
      assert (a + [sep])[1..] == a[1..] + [sep];
      assert s[0] == a[0];
      PrefixBeforeSeparator(a[1..], sep, s[1..]);
    }
  }

  /** Two separator-free strings followed by the separator cannot both start the same string unless equal. */
  lemma FirstSeparatorUnique(a: string, b: string, sep: char, s: string)
    requires sep !in a && sep !in b
    requires IsPrefix(a + [sep], s) && IsPrefix(b + [sep], s)
    ensures a == b
  {
    PrefixBeforeSeparator(a, sep, s);
    PrefixBeforeSeparator(b, sep, s);
  }

  /** Joined separator-free pieces contain the separator exactly when there are at least two. */
  lemma JoinHasSeparator(parts: seq<string>, sep: char)
    requires |parts| >= 1 && NoneContains(parts, sep)
    ensures sep in Join(parts, sep) <==> |parts| > 1
  {
    if |parts| > 1 {
      assert Join(parts, sep)[|parts[0]|] == sep;
    }
  }

  /** The first piece of a split is exactly the separator-free text before the first separator. */
  lemma SplitHead(s: string, w: string, sep: char)
    requires sep !in w
    requires IsPrefix(w + [sep], s)
    ensures Split(s, sep)[0] == w
  {
    assert s[|w|] == sep;
    SplitFirst(s, sep);
    FirstSeparatorUnique(Split(s, sep)[0], w, sep, s);
  }

  /** Joining separator-free pieces is injective. */
  lemma {:induction false} JoinInjective(xs: seq<string>, ys: seq<string>, sep: char)
    requires |xs| >= 1 && |ys| >= 1
    requires NoneContains(xs, sep) && NoneContains(ys, sep)
    requires Join(xs, sep) == Join(ys, sep)
    ensures xs == ys
    decreases |xs|
  {
    var s := Join(xs, sep);
    JoinHasSeparator(xs, sep);
    JoinHasSeparator(ys, sep);
    if |xs| > 1 {
      assert s == xs[0] + [sep] + Join(xs[1..], sep);
      assert s == ys[0] + [sep] + Join(ys[1..], sep);
      assert IsPrefix(xs[0] + [sep], s);
      assert IsPrefix(ys[0] + [sep], s);
      FirstSeparatorUnique(xs[0], ys[0], sep, s);
      assert Join(xs[1..], sep) == s[|xs[0]| + 1..];
      assert Join(ys[1..], sep) == s[|ys[0]| + 1..];
      JoinInjective(xs[1..], ys[1..], sep);
      assert xs == [xs[0]] + xs[1..];
      assert ys == [ys[0]] + ys[1..];
    }
  }

  /** Splitting undoes joining, for a non-empty list of separator-free pieces. */
  lemma SplitJoin(parts: seq<string>, sep: char)
    requires |parts| >= 1
    requires NoneContains(parts, sep)
    ensures Split(Join(parts, sep), sep) == parts
  {
    JoinInjective(Split(Join(parts, sep), sep), parts, sep);
  }

  /** Joining a non-empty list and then appending text extends the last piece. */
  lemma {:induction false} JoinAppendLast(parts: seq<string>, sep: char, x: string)
    requires |parts| >= 1
    ensures Join(parts, sep) + x == Join(parts[..|parts| - 1] + [parts[|parts| - 1] + x], sep)
    decreases |parts|
  {
    if |parts| > 1 {
      var tail := parts[1..];
      JoinAppendLast(tail, sep, x);
      var ext := parts[..|parts| - 1] + [parts[|parts| - 1] + x];
      assert ext[0] == parts[0] && |ext| > 1;
      assert ext[1..] == tail[..|tail| - 1] + [tail[|tail| - 1] + x];
      assert Join(parts, sep) == parts[0] + [sep] + Join(tail, sep);
      assert Join(ext, sep) == parts[0] + [sep] + Join(ext[1..], sep);
      assert (parts[0] + [sep] + Join(tail, sep)) + x == parts[0] + [sep] + (Join(tail, sep) + x);
    }
  }

  /** A character that is neither the separator nor in any piece is not in the joined string. */
  lemma {:induction false} JoinAvoids(parts: seq<string>, sep: char, c: char)
    requires c != sep && NoneContains(parts, c)
    ensures c !in Join(parts, sep)
    decreases |parts|
  {
    if |parts| > 1 {
      JoinAvoids(parts[1..], sep, c);
    }
  }
}

=== FILE: wrappers.dfy ===
/** Optional values, standing for Swift's `T?`. */
module Wrappers {

  /** `None` is Swift's `nil`; `Some(v)` is a present value. */
  datatype Option<+T> = None | Some(value: T)
}
